=== FILE: README.md ===
# Localized date-time field — a Dafny model

This project models the localized date-time machinery of `timezones/fields.py`
in django-timezones. The field stores every value in UTC but shows each record's
value in a zone of that record's own. The zone is either fixed when the field is
declared or resolved per record from a callable, an attribute, or a
`__`-separated relation path.

Three parts are modelled:

- **The per-record accessor** (`TestDateTimeDescriptor`, module `Descriptor`).
  It uses three entries of the record's instance dictionary:
  - `name` holds the value the program assigned, in the record's zone;
  - `<name>_utc` holds the value loaded from storage, always read as UTC;
  - `_<name>_cache` holds the last localized date-time, or the resolved zone.
  `Set`, `Get` and `GetForSave` move values between them.
- **The time-zone resolver** (`get_timezone`, module `Resolver`). It answers
  from the cache, calls a callable source, reads an attribute, or walks cached
  relations and then queries. It coerces zone names and caches the result.
- **The field** (`TestDateTimeField`, modules `Declaration` and `DateTimeField`).
  This covers slot naming, how the `timezone` argument is classified,
  `get_prep_value`, `get_db_prep_value`, `pre_save` and `get_default`.

Abstractions:

- An instant is an `int` (UTC seconds).
- A zone has a fixed offset.
- A date-time is `Naive(wall)` or `Aware(instant, zone)`.
- `localize(z, wall)` is `Aware(wall - z.offset, z)`.
- `astimezone` keeps the instant and replaces the zone.

A record is an `Obj`: its instance dictionary plus its class attributes. Values
are dynamically typed (`Value`), so the type errors the Python code would raise
appear as `Err` results. The process-wide settings are an `Env` value passed
explicitly:

- `defaultZone` is the application zone (`default_tz`);
- `zones` is the zone catalogue (`pytz.all_timezones_set`), each name with the
  zone `pytz.timezone` gives for it; `Resolver.PytzTimezone` adds pytz's rule
  that any spelling of `utc` is UTC;
- `query` stands for the resolver's database query. It is an uninterpreted
  function of the instance and the remaining path.

The framework's `DateTimeField.to_python` is modelled as `Declaration.ToPython`.
It passes date-times and `None` through, turns a calendar date (`DayVal`) into
a naive date-time at its midnight, and rejects everything else. The
framework's cache-slot name `_<name>_cache` is `Declaration.CacheName`.

The central facts proved:

- Naive values follow two different policies:
  - through the descriptor, they are read in the record's zone;
  - through `get_prep_value` and `get_default`, they are read in the application zone.
- Assignment invalidates the cache.
- Reads are idempotent.
- What `get` shows and what `get_for_save` stores denote the same instant.

Behaviour worth noting:

- A relation query that returns no row raises `IndexError` (the `[0][0]` at
  line 171). It does not fall back to the application zone.
- A cached related instance that is `None` makes the walk fail. When it was
  the last part of the path, the next look at the emptied list raises
  `IndexError` (line 162); otherwise `None.__dict__` raises `AttributeError`.
- An attribute source that yields `None` is cached as `None`. Only the relation
  path falls back to the application zone.
- `get_for_save` can fill the cache slot with the resolved zone. It does so
  through the `<name>_timezone` property.
- `get_for_save` returns an aware value loaded into `<name>_utc` unconverted.
  Its instant is right, but its zone is UTC only when the stored value was
  naive or already in UTC.

## Model

| member | source | states |
|---|---|---|
| `Paths.JoinSplit` | timezones/fields.py:160-171 | joining the parts of a split relation path with `__` gives back the path |
| `Paths.JoinAt` | timezones/fields.py:165-171 | a joined path is its joined leading parts, `__`, and its joined remaining parts; with `JoinSplit`, the path the query receives is exactly the text after the relations walked |
| `Paths.SplitMany` | timezones/fields.py:154-160 | a source splits into several parts exactly when it contains `__`, so the attribute branch and the path branch partition the text sources |
| `Paths.ContainsSepAt` | timezones/fields.py:154 | `'__' in s` holds exactly when two adjacent characters are underscores |
| `Resolver.Walk` | timezones/fields.py:160-167 | a successful walk has followed the `_<part>_cache` keys of the leading parts, in order, and stands on the instance those keys reach from the record; the first part left is not cached there and at least one part is left; a failure is `IndexError` or `AttributeError` |
| `Resolver.WalkReaches` | timezones/fields.py:160-167 | wherever the cache keys of the first `n` parts reach an instance, the walk stops there if part `n` is not cached, fails with `IndexError` if no part is left or part `n` is the last and cached as a non-instance, and fails with `AttributeError` for an earlier non-instance; with the ensures of `Walk` this decides every walk |
| `Resolver.FirstRow` | timezones/fields.py:169-171 | the first column of the first row is the answer, and no row raises `IndexError` |
| `Resolver.Locate` | timezones/fields.py:149-176 | a callable is called; a name without `__` is read from the instance, then the class, and called if callable, and a missing name raises `AttributeError`; a name with `__` is resolved as a relation path; any other source fails with `TypeError`; a relation is followed only from one cached on the record |
| `Resolver.FollowPath` | timezones/fields.py:160-175 | a failed walk fails the path the same way; otherwise the result is what `AfterWalk` reads on the instance the walk reached, and the keys reported lead from the record to a cached instance |
| `Resolver.AfterWalk` | timezones/fields.py:168-175 | a remainder of several parts is queried on the instance reached by its joined name, with no row raising `IndexError`; a single remaining part is read from the instance, then the class, and not called, a missing one raising `AttributeError`; `None` from either becomes the application zone, so no result is `None`; the keys walked are reported |
| `Resolver.PytzTimezone` | timezones/fields.py:179 | a name spelled `utc` in any case is UTC; any other name resolves exactly when it is in the catalogue, to its catalogue zone |
| `Resolver.Coerce` | timezones/fields.py:178-179 | text becomes the zone `pytz.timezone` gives, an unknown name fails with `UnknownTimeZone`, other values pass unchanged, and no text survives |
| `Resolver.CachedZone` | timezones/fields.py:143-147 | a cached aware date-time answers with its zone, a naive one with `None`, and anything else answers as itself |
| `Resolver.GetTimezone` | timezones/fields.py:137-182 | a cached value answers without writing; otherwise the answer is the coerced zone of what `Locate` finds, so an attribute source gives its (called) attribute coerced and a missing attribute `AttributeError`; `Locate`'s errors pass through and a bad name is `UnknownTimeZone`; the answer is stored in the record's cache slot and nothing else changes (corrected cache write) |
| `Resolver.GetTimezoneAsWritten` | timezones/fields.py:159-181 | the resolver as written succeeds exactly when the corrected one does, with the same zone, but stores it in the instance reached by the relation keys walked |
| `Resolver.GetTimezoneRepeat` | timezones/fields.py:143-147 | after a resolution, the next one answers from the cache with the same zone and changes nothing |
| `Resolver.AttributeNoneIsNotDefaulted` | timezones/fields.py:154-158 | an attribute source holding `None` resolves to `None`, which is cached; it is not replaced by the application zone |
| `Resolver.PathNoneIsDefaulted` | timezones/fields.py:172-175 | a relation path whose final attribute is `None` resolves to the application zone |
| `Resolver.AsWrittenMissesRecord` | timezones/fields.py:164-181 | once the walk has followed a relation, the as-written resolver leaves the record's cache slot empty, while the corrected one fills it |
| `Resolver.LocateThroughCachedRelation` | timezones/fields.py:160-173 | `rel__attr` with `rel` cached reads `attr` on the related instance, without calling it |
| `Resolver.AsWrittenCachesOnRelated` | timezones/fields.py:164-181 | for `rel__attr` with the relation cached, the as-written resolver stores the zone inside the related instance, and the corrected one stores it on the record |
| `Resolver.OwnerTzExample` | timezones/fields.py:164-181 | concrete case `owner__tz`: the event's `_start_cache` stays empty and the owner gains `_start_cache` |
| `Records.StoreAtReached` | timezones/fields.py:164-181 | a store along a chain of cached relations lands in the instance the chain reaches: following the chain afterwards finds that instance with the entry stored |
| `Declaration.AttName` | timezones/fields.py:247-249 | the storage slot is the field name followed by `_utc` |
| `Declaration.TimezoneName` | timezones/fields.py:250-252 | the zone attribute is the field name followed by `_timezone` |
| `Declaration.InitTimezone` | timezones/fields.py:191-196 | a catalogue name becomes the zone `pytz.timezone` gives for it (UTC for `utc`); every other argument is kept as given |
| `Declaration.SlotNamesDistinct` | timezones/fields.py:247-252 | `name`, `<name>_utc`, `_<name>_cache` and `<name>_timezone` are pairwise distinct, and each naming is one-to-one |
| `Declaration.DeclaredBinding` | timezones/fields.py:191-196 | a catalogue name or zone object is fixed; no zone means the application zone; any other text or a callable is resolved per record |
| `Declaration.ContributeToClass` | timezones/fields.py:257-264 | the resolver is installed exactly when the zone is neither absent nor a zone object, and it resolves the given source |
| `Declaration.ToPython` | timezones/fields.py:205 | `None` and date-times pass unchanged, a date becomes its naive midnight, anything else fails with `ValidationError`; every success is `None` or a date-time |
| `Descriptor.RecordZone` | timezones/fields.py:257-264 | the record's zone is the fixed zone, or the resolver on the record's cache slot; at most that slot changes |
| `Descriptor.RecordZoneAsWritten` | timezones/fields.py:103 | with the resolver as written, the record's zone is the same zone, and fails exactly when `RecordZone` fails |
| `Descriptor.InZone` | timezones/fields.py:111-115 | showing succeeds exactly when the zone is a zone; the result is aware in that zone at the instant the input denotes there, and a naive input keeps its wall clock |
| `Descriptor.Set` | timezones/fields.py:76-87 | the assigned value is in the `name` slot; the cache and `<name>_utc` slots are gone; every other entry is unchanged |
| `Descriptor.Get` | timezones/fields.py:89-117 | a cached date-time is returned unchanged. A stored or assigned date-time is read successfully exactly when the record's zone resolves to a zone, and a non-date-time assigned value is always returned. A loaded value is read as UTC and shown at the same instant in the record's zone; a loaded `None` is cached and returned, and a loaded value that is neither raises `AttributeError`. An assigned naive value is read in the record's zone and an aware one converted into it. A non-date-time is returned uncached. Only the cache slot changes, and date-time results are cached |
| `Descriptor.GetForSave` | timezones/fields.py:119-135 | the result is `None` or aware. A loaded value is read as UTC without resolving the zone, and a loaded aware value is returned unconverted. An assigned aware value keeps its instant in UTC. An assigned naive value, or an assigned date taken at its midnight, is read in the record's zone and expressed in UTC, and succeeds exactly when that zone resolves. Anything else is rejected |
| `Descriptor.GetRepeat` | timezones/fields.py:93-116 | a second read with no assignment between returns the same value and leaves the record as it was |
| `Descriptor.GetForSaveRepeat` | timezones/fields.py:119-135 | saving twice with no assignment between stores the same value |
| `Descriptor.GetForSaveAgreesWithGet` | timezones/fields.py:97-135 | with no date-time cached, the read and the value for storage denote the same moment; an assigned date is the exception: the read returns the date untouched while the save stores its midnight in the record's zone |
| `Descriptor.GetForSaveAfterGet` | timezones/fields.py:143-147 | after a read fills the cache, the value for storage still denotes the moment the read showed; a read of an assigned date changes nothing |
| `Descriptor.SetForgetsPrevious` | timezones/fields.py:82-87 | records differing only in the cache and `<name>_utc` slots are identical after the same assignment |
| `Descriptor.ReadAfterSetIgnoresEarlierRead` | timezones/fields.py:83-87 | after any earlier read, assigning then reading gives exactly what it gives on a never-read record |
| `Descriptor.ReadAfterSet` | timezones/fields.py:107-117 | a read after an assignment returns a non-date-time as assigned and a date-time at its instant in the record's zone |
| `Descriptor.SaveAfterNaiveSet` | timezones/fields.py:128-135 | after assigning a naive reading, the stored value is that reading taken in the record's zone, in UTC |
| `DateTimeField.GetPrepValue` | timezones/fields.py:199-210 | `None` stays `None`; a date-time becomes UTC at the instant it denotes when a naive value is read in the application zone; a date is taken at its midnight in the application zone; anything else is rejected |
| `DateTimeField.GetPrepValueIdempotent` | timezones/fields.py:205-210 | preparing a prepared value changes nothing |
| `DateTimeField.GetDbPrepValue` | timezones/fields.py:212-219 | for the MySQL engine a date-time loses its zone and keeps its UTC wall clock; other engines get the prepared value unchanged; `None` passes through |
| `DateTimeField.DbPrepStripLosesNothing` | timezones/fields.py:216-219 | the zone-stripped value, read back as UTC, is exactly the prepared value |
| `DateTimeField.PreSave` | timezones/fields.py:222-233 | with `auto_now`, or `auto_now_add` on insert, the result is `now` in UTC, assigned through `Set` so the cache is cleared; otherwise it is exactly the descriptor's value for storage |
| `DateTimeField.PreSaveAutoConsistent` | timezones/fields.py:223-227 | after an automatic timestamp, saving again stores the same value and reading shows the same instant |
| `DateTimeField.GetDefault` | timezones/fields.py:239-245 | the default is the prepared base default (a callable default called): no default or a `None` default gives `None`, a date-time default is UTC at the instant it denotes with a naive one read in the application zone, a date default is its midnight in the application zone, and any other default is rejected |
| `DateTimeField.DefaultAsSaved` | timezones/fields.py:119-135 | for a record whose zone is the application zone, assigning the base default and saving hands storage exactly what `get_default` gives |
| `DateTimeField.NaivePolicies` | timezones/fields.py:199-210 | a naive reading saved through assignment lands at `wall - record offset` and prepared directly lands at `wall - application offset`; the two agree exactly when the offsets agree |
| `DateTimeField.NaivePoliciesExample` | timezones/fields.py:206-208 | with Chicago as the application zone and Moscow as the record zone, a naive 09:00 is saved as 06:00 UTC but prepared as 15:00 UTC |
| `Clock.StripZoneUtcRoundTrip` | timezones/fields.py:218-219 | stripping the zone of a UTC value and localizing it in UTC restores the value |

## Left out

- `TimeZoneField` (lines 21-65): its validation and coercion come from `timezones.utils` and `timezones.zones`. Neither is part of this model; the rest is framework text-field plumbing.
- `_get_val_from_obj` (lines 266-272): line 270 refers to an undefined `model_instance`, so this serialization glue cannot run as written.
- `formfield` (lines 274-282): form integration only.
- The South introspection block (lines 284-300): migration tooling.
- The debug `print` in the resolver (line 176): output only.
- `connection.ops.value_to_db_datetime` (line 220) is an opaque driver call. The model returns the value it would be given.
- `get_db_prep_save` (lines 235-237) is `get_db_prep_value` with `prepared` true. That case is covered by `DateTimeField.GetDbPrepValue`.
- Class-level access to the descriptor (`instance is None`, lines 90-91) returns the descriptor itself. It is not a record operation.
- Zone rules are fixed offsets. pytz's DST tables, and the choice `localize` makes for ambiguous or missing wall-clock times, are not modelled.
- `datetime.now(db_tz)` is the `now` parameter of `DateTimeField.PreSave`.
- The resolver's database query is the uninterpreted `Env.query`.
- Declaration.ToPython: the framework's parsing of date-time strings is not modelled. Text is rejected instead of parsed, so `GetPrepValue`, `GetDefault` and `GetForSave` give `ValidationError` for a text value the framework would parse. Dates are modelled: a date becomes its naive midnight, as the framework does.
- Resolver.Locate: a callable zone source, or a callable attribute, is modelled by the one value it returns (`FuncVal`). It cannot raise, cannot depend on the record's state, and cannot query the database; exceptions raised by the callable are not modelled. An object with a `__call__` method is not treated as callable. Walking onto any value that is not a model instance fails with `AttributeError`. In Python, an object that happens to have a `__dict__` would be searched instead.
- Records.GetAttr: attributes are read from the instance dictionary, then from the class. Data descriptors on the class (properties) are not looked up before the instance dictionary.
- Descriptor.Get: a failed read or save returns no record, so a cache write made by the resolver before the failure is not kept (the same holds for `GetForSave`). In the program, `get_timezone` stores its answer (line 181) before `__get__` or `get_for_save` raise on it (lines 104, 113, 133), so a resolved `None` stays cached and the record keeps failing until the next assignment; in the model, a later read resolves afresh.
- Descriptor.RecordZone: `Get`, `GetForSave` and `PreSave` resolve the zone through the corrected resolver. The program's `getattr(instance, '<name>_timezone')` (lines 103, 111, 132) runs the resolver as written: for a source that walks a relation, it writes the zone into the last related instance, and after `get_for_save` the record's cache slot stays empty. `RecordZoneAsWritten` shows the zone itself is the same, so the values returned agree; the post-states of those members describe the corrected program.
- Descriptor.RecordZone: for a fixed zone, an instance-dictionary entry named `<name>_timezone` that would shadow the class attribute is not modelled.
- Resolver.Coerce: `pytz.timezone` also rewrites `_plus_`/`_minus_` in names, and later pytz releases look names up ignoring case; only the `utc` spelling rule is modelled, and other names must match the catalogue exactly.
- Related instances are values, not shared objects: a write into a related instance is rebuilt along the path back to the record, and sharing between records or cycles of relations cannot be represented.
- Instants are unbounded integers. Python date-times cover years 1 to 9999, and a conversion past either end raises `OverflowError`; that error is not modelled.
- `timezones/templatetags/timezone_filters.py`: a one-line filter over `localtime_for_timezone`. That function is in `timezones.utils`, which is not part of this model.

## Findings

| source | as written | input that shows it | evidently intended | confidence | as-written member | corrected member |
|---|---|---|---|---|---|---|
| timezones/fields.py:164-181 | during the relation walk `instance` is rebound to each cached related object, so `instance.__dict__[cache_name] = timezone` writes into the last related object, not the record | record with zone source `owner__tz`, `_owner_cache` holding an owner whose `tz` is `"Europe/Moscow"`: the record's `_start_cache` stays empty (`get_for_save` of a naive value and direct `start_timezone` access walk again until a read caches a date-time there) and the owner gains `_start_cache`, which a same-named field on the owner would take for its own zone (`Resolver.AsWrittenCachesOnRelated`, `Resolver.OwnerTzExample`) | the resolved zone is cached on the record whose zone was asked for | not executed; high | `Resolver.GetTimezoneAsWritten` | `Resolver.GetTimezone` |

=== FILE: base.dfy ===
/** Failure-compatible wrappers shared by the whole model: an optional value, and
    the outcome of an operation that in the original program may raise. */
module Base {

  datatype Option<T> = None | Some(value: T)

  /** The exceptions the modelled code can raise, by kind. */
  datatype Error =
    | AttributeError   // attribute or method missing on the object at hand
    | KeyError         // instance dictionary has no such entry
    | IndexError       // indexing an empty list or an empty query result
    | TypeError        // an operation applied to a value of the wrong kind
    | UnknownTimeZone  // a zone name outside the zone catalogue
    | ValidationError  // the framework's date-time coercion rejected the value

  datatype Result<T> = Ok(value: T) | Err(error: Error) {

    predicate IsFailure() {
      Err?
    }

    function PropagateFailure<U>(): Result<U>
      requires Err?
    {
      Err(error)
    }

    function Extract(): T
      requires Ok?
    {
      value
    }
  }
}

=== FILE: clock.dfy ===
/** Instants, fixed-offset zones and the two kinds of date-time the program
    handles: naive (a wall-clock reading with no zone) and aware (an instant
    bound to a zone). Every quantity is a whole number of seconds. */
module Clock {

  /** A zone is known by its name and its offset from UTC, in seconds. */
  datatype Zone = Zone(name: string, offset: int)

  /** The storage zone: everything written to the database is in UTC. */
  const UTC: Zone := Zone("UTC", 0)

  datatype DateTime =
    | Naive(wall: int)
    | Aware(instant: int, zone: Zone)

  /** The wall-clock reading of a date-time: what a naive date-time holds, and
      what an aware one shows in its own zone. */
  function WallClock(d: DateTime): int {
    match d
    case Naive(w) => w
    case Aware(t, z) => t + z.offset
  }

  /** `zone.localize(naive)`: attach a zone to a wall-clock reading. */
  function Localize(z: Zone, wall: int): (d: DateTime)
    ensures d.Aware? && d.zone == z
    ensures WallClock(d) == wall
  {
    Aware(wall - z.offset, z)
  }

  /** `aware.astimezone(zone)`: the same instant, seen from another zone. */
  function AsTimeZone(d: DateTime, z: Zone): (r: DateTime)
    requires d.Aware?
    ensures r.Aware? && r.zone == z
    ensures r.instant == d.instant
    ensures WallClock(r) - WallClock(d) == z.offset - d.zone.offset
  {
    Aware(d.instant, z)
  }

  /** `aware.replace(tzinfo=None)`: forget the zone, keep the wall clock. */
  function StripZone(d: DateTime): (r: DateTime)
    requires d.Aware?
    ensures r.Naive? && r.wall == WallClock(d)
  {
    Naive(d.instant + d.zone.offset)
  }

  /** The first moment of a calendar day, naive: what
      `datetime(d.year, d.month, d.day)` makes of a date. */
  function Midnight(day: int): (d: DateTime)
    ensures d.Naive? && d.wall == day * 86400
  {
    Naive(day * 86400)
  }

  /** The instant a date-time denotes when a naive value is read as a wall
      clock in zone `z`. This is the reference meaning against which the
      conversions of the field are stated. */
  function InstantIn(d: DateTime, z: Zone): int {
    match d
    case Naive(w) => Localize(z, w).instant
    case Aware(t, _) => t
  }

  /** Localizing in UTC, which is what the program does to naive values read
      back from storage, denotes the same instant as reading them in UTC. */
  function AssumeUtc(d: DateTime): (r: DateTime)
    ensures r.Aware?
    ensures r.instant == InstantIn(d, UTC)
    ensures d.Aware? ==> r == d
    ensures d.Naive? ==> r.zone == UTC && WallClock(r) == d.wall
  {
    if d.Naive? then Localize(UTC, d.wall) else d
  }

  /** Stripping the zone of a UTC value and localizing the result in UTC
      restores the value: nothing is lost when the driver refuses zones. */
  lemma StripZoneUtcRoundTrip(d: DateTime)
    requires d.Aware? && d.zone == UTC
    ensures Localize(UTC, StripZone(d).wall) == d
  {
  }
}

=== FILE: datetime_field.dfy ===
/** The field-level conversions of the localized date-time field
    (`TestDateTimeField`): preparing values for storage, the pre-save hook,
    defaults, and the driver adjustment. These run without a record's zone
    at hand, so a naive value is read in the application zone here, whereas
    the descriptor reads it in the record's zone. */
module DateTimeField {
  import opened Base
  import opened Clock
  import opened Records
  import opened Resolver
  import opened Declaration
  import opened Descriptor

  /** The storage engine whose driver refuses zone-aware values. */
  const MySqlEngine: string := "django.db.backends.mysql"

  /** `get_prep_value`: coerce, read a naive value in the application zone,
      and express the result in UTC. */
  function GetPrepValue(v: Value, env: Env): (r: Result<Value>)
    ensures v.NoneVal? ==> r == Ok(NoneVal)
    ensures v.DateVal? ==> r == Ok(DateVal(Aware(InstantIn(v.dt, env.defaultZone), UTC)))
    ensures v.DayVal? ==> r == Ok(DateVal(Aware(InstantIn(Midnight(v.day), env.defaultZone), UTC)))
    ensures !v.NoneVal? && !v.DateVal? && !v.DayVal? ==> r == Err(ValidationError)
  {
    var c :- ToPython(v);
    if c.NoneVal? then Ok(NoneVal)
    else if c.dt.Naive? then Ok(DateVal(AsTimeZone(Localize(env.defaultZone, c.dt.wall), UTC)))
    else Ok(DateVal(AsTimeZone(c.dt, UTC)))
  }

  /** Preparing an already prepared value changes nothing. */
  lemma GetPrepValueIdempotent(v: Value, env: Env)
    requires GetPrepValue(v, env).Ok?
    ensures GetPrepValue(GetPrepValue(v, env).value, env) == GetPrepValue(v, env)
  {
  }

  /** `get_db_prep_value`: prepare unless told the value already is, then,
      for the engine that refuses zones, drop the zone while keeping the
      wall clock (which, the value being in UTC, is the instant itself). */
  function GetDbPrepValue(v: Value, prepared: bool, engine: string, env: Env): (r: Result<Value>)
    ensures engine != MySqlEngine ==> r == (if prepared then Ok(v) else GetPrepValue(v, env))
    ensures engine == MySqlEngine && !prepared && v.DateVal? ==>
      r == Ok(DateVal(Naive(InstantIn(v.dt, env.defaultZone))))
    ensures engine == MySqlEngine && !prepared && v.DayVal? ==>
      r == Ok(DateVal(Naive(InstantIn(Midnight(v.day), env.defaultZone))))
    ensures engine == MySqlEngine && prepared && v.DateVal? && v.dt.Aware? ==>
      r == Ok(DateVal(Naive(WallClock(v.dt))))
    ensures v.NoneVal? ==> r == Ok(NoneVal)
  {
    var p :- if prepared then Ok(v) else GetPrepValue(v, env);
    if p.NoneVal? || engine != MySqlEngine then Ok(p)
    else match p
      case DateVal(d) => Ok(DateVal(if d.Aware? then StripZone(d) else d))
      case _ => Err(if p.TextVal? || p.DayVal? then TypeError else AttributeError)
  }

  /** Nothing is lost by stripping the zone for the refusing engine: the
      stored naive value, read back as UTC, is the prepared value. */
  lemma DbPrepStripLosesNothing(v: Value, env: Env)
    requires v.DateVal?
    ensures var stored := GetDbPrepValue(v, false, MySqlEngine, env).value.dt;
      DateVal(AssumeUtc(stored)) == GetPrepValue(v, env).value
  {
  }

  /** `pre_save`: an auto-populated field takes the current moment in UTC and
      assigns it through the descriptor, so the cache is cleared; any other
      field hands over the descriptor's value for storage. */
  function PreSave(f: Field, o: Obj, add: bool, now: int, env: Env): (r: Result<Step>)
    ensures f.autoNow || (f.autoNowAdd && add) ==>
      && r.Ok? && r.value.value == DateVal(Aware(now, UTC))
      && r.value.rec == Set(f, o, DateVal(Aware(now, UTC)))
      && CacheName(f.name) !in r.value.rec.dict
    ensures !(f.autoNow || (f.autoNowAdd && add)) ==> r == GetForSave(f, o, env)
  {
    if f.autoNow || (f.autoNowAdd && add) then
      var v := DateVal(Aware(now, UTC));
      Ok(Step(v, Set(f, o, v)))
    else GetForSave(f, o, env)
  }

  /** After an automatic timestamp, the record agrees with what pre-save
      returned: saving again stores the same value, and reading shows the
      same instant in the record's zone. */
  lemma PreSaveAutoConsistent(f: Field, o: Obj, add: bool, now: int, env: Env)
    requires f.autoNow || (f.autoNowAdd && add)
    ensures var s := PreSave(f, o, add, now, env).value;
      && GetForSave(f, s.rec, env) == Ok(s)
      && (Get(f, s.rec, env).Ok? ==> SameMoment(Get(f, s.rec, env).value.value, s.value))
  {
  }

  /** The framework default before preparation: a callable default is
      called; no default means `None`. */
  function BaseDefault(f: Field): (v: Value)
    ensures f.default.None? ==> v == NoneVal
    ensures f.default.Some? && !f.default.value.FuncVal? ==> v == f.default.value
    ensures f.default.Some? && f.default.value.FuncVal? ==> v == f.default.value.ret
  {
    match f.default
    case None => NoneVal
    case Some(FuncVal(ret)) => ret
    case Some(d) => d
  }

  /** `get_default`: the framework default, prepared. With no record there is
      no record zone, so a naive default is read in the application zone. */
  function GetDefault(f: Field, env: Env): (r: Result<Value>)
    ensures f.default.None? ==> r == Ok(NoneVal)
    ensures BaseDefault(f).NoneVal? ==> r == Ok(NoneVal)
    ensures BaseDefault(f).DayVal? ==>
      r == Ok(DateVal(Aware(InstantIn(Midnight(BaseDefault(f).day), env.defaultZone), UTC)))
    ensures !BaseDefault(f).NoneVal? && !BaseDefault(f).DateVal? && !BaseDefault(f).DayVal? ==> r == Err(ValidationError)
    ensures BaseDefault(f).DateVal? ==>
      r == Ok(DateVal(Aware(InstantIn(BaseDefault(f).dt, env.defaultZone), UTC)))
    ensures r.Ok? ==> r.value.NoneVal? || (r.value.DateVal? && r.value.dt.Aware? && r.value.dt.zone == UTC)
  {
    GetPrepValue(BaseDefault(f), env)
  }

  /** Where the record's zone is the application zone, the two policies
      meet: assigning the base default and saving hands storage exactly what
      `get_default` prepares. */
  lemma DefaultAsSaved(f: Field, o: Obj, env: Env)
    requires f.binding == FixedZone(env.defaultZone)
    requires GetDefault(f, env).Ok?
    ensures var o' := Set(f, o, BaseDefault(f));
      GetForSave(f, o', env) == Ok(Step(GetDefault(f, env).value, o'))
  {
  }

  /** The two naive-value policies. Assigning a naive reading and saving
      reads it in the record's zone; preparing it directly (as defaults are)
      reads it in the application zone. The two stored values coincide
      exactly when the two zones share an offset. */
  lemma NaivePolicies(f: Field, o: Obj, wall: int, env: Env)
    requires GetForSave(f, Set(f, o, DateVal(Naive(wall))), env).Ok?
    ensures var o' := Set(f, o, DateVal(Naive(wall)));
      var saved := GetForSave(f, o', env).value.value;
      var zone := RecordZone(f, o', env).value.value.zone;
      var prepared := GetPrepValue(DateVal(Naive(wall)), env).value;
      && saved == DateVal(Aware(wall - zone.offset, UTC))
      && prepared == DateVal(Aware(wall - env.defaultZone.offset, UTC))
      && (saved == prepared <==> zone.offset == env.defaultZone.offset)
  {
  }

  /** A worked case: application zone Chicago (UTC-6), record zone Moscow
      (UTC+3), and a naive 09:00 assigned. Saving stores 06:00 UTC; the
      default path would have stored 15:00 UTC. */
  lemma NaivePoliciesExample(o: Obj, env: Env)
    requires env.defaultZone == Zone("America/Chicago", -6 * 3600)
    ensures var f := Field("start", FixedZone(Zone("Europe/Moscow", 3 * 3600)), false, false, None);
      var nine := DateVal(Naive(9 * 3600));
      && GetForSave(f, Set(f, o, nine), env) == Ok(Step(DateVal(Aware(6 * 3600, UTC)), Set(f, o, nine)))
      && GetPrepValue(nine, env) == Ok(DateVal(Aware(15 * 3600, UTC)))
  {
  }
}

=== FILE: declaration.dfy ===
/** The declaration side of the localized date-time field: the names it uses
    in the instance dictionary, and how its `timezone` argument is classified
    when the field is constructed and attached to a model class. */
module Declaration {
  import opened Base
  import opened Clock
  import opened Records
  import opened Resolver

  /** How the class-level `<name>_timezone` attribute answers: a zone fixed
      at declaration, or the resolver run on a source for each record. */
  datatype TzBinding =
    | FixedZone(zone: Zone)
    | ResolvedBy(source: Value)

  /** A declared localized date-time field.
      - `name`: the attribute the descriptor intercepts;
      - `binding`: where the record's zone comes from;
      - `autoNow`, `autoNowAdd`: the framework's auto-population flags;
      - `default`: the framework-level default, if one was declared. */
  datatype Field = Field(
    name: string,
    binding: TzBinding,
    autoNow: bool,
    autoNowAdd: bool,
    default: Option<Value>)

  /** `get_attname`: the slot that receives values loaded from storage. */
  function AttName(name: string): (r: string)
    ensures |r| == |name| + 4 && r[..|name|] == name && r[|name|..] == "_utc"
  {
    name + "_utc"
  }

  /** `get_timezone_name`: the class attribute giving the record's zone. */
  function TimezoneName(name: string): (r: string)
    ensures |r| == |name| + 9 && r[..|name|] == name && r[|name|..] == "_timezone"
  {
    name + "_timezone"
  }

  /** The framework's per-field cache slot, `_<name>_cache`. */
  function CacheName(name: string): string {
    "_" + name + "_cache"
  }

  /** The three dictionary slots of a field, and the zone attribute, are four
      different names for every field name, and each naming is one-to-one, so
      two fields never share a slot. */
  lemma SlotNamesDistinct(name: string, other: string)
    ensures name != AttName(name) && name != CacheName(name) && name != TimezoneName(name)
    ensures AttName(name) != CacheName(name) && AttName(name) != TimezoneName(name)
    ensures CacheName(name) != TimezoneName(name)
    ensures AttName(name) == AttName(other) ==> name == other
    ensures CacheName(name) == CacheName(other) ==> name == other
    ensures TimezoneName(name) == TimezoneName(other) ==> name == other
  {
    if AttName(name) == AttName(other) {
      assert name == AttName(name)[..|name|];
      assert other == AttName(other)[..|other|];
    }
    if TimezoneName(name) == TimezoneName(other) {
      assert name == TimezoneName(name)[..|name|];
      assert other == TimezoneName(other)[..|other|];
    }
    if CacheName(name) == CacheName(other) {
      assert name == CacheName(name)[1..|name| + 1];
      assert other == CacheName(other)[1..|other| + 1];
    }
  }

  /** The constructor's treatment of `timezone`: a name found in the zone
      catalogue becomes that zone; anything else is kept as given (a lookup
      name or path, a callable, a zone object, or nothing). */
  function InitTimezone(arg: Value, env: Env): (tz: Value)
    ensures arg.TextVal? && arg.text in env.zones && IsUtcName(arg.text) ==> tz == ZoneVal(UTC)
    ensures arg.TextVal? && arg.text in env.zones && !IsUtcName(arg.text) ==> tz == ZoneVal(env.zones[arg.text])
    ensures !(arg.TextVal? && arg.text in env.zones) ==> tz == arg
  {
    if arg.TextVal? && arg.text in env.zones then ZoneVal(PytzTimezone(arg.text, env).value) else arg
  }

  /** `contribute_to_class`: no zone means the application zone, a zone
      object is installed as is, anything else installs the resolver. */
  function ContributeToClass(tz: Value, env: Env): (b: TzBinding)
    ensures tz.NoneVal? ==> b == FixedZone(env.defaultZone)
    ensures tz.ZoneVal? ==> b == FixedZone(tz.zone)
    ensures b.ResolvedBy? <==> !tz.NoneVal? && !tz.ZoneVal?
    ensures b.ResolvedBy? ==> b.source == tz
  {
    match tz
    case NoneVal => FixedZone(env.defaultZone)
    case ZoneVal(z) => FixedZone(z)
    case _ => ResolvedBy(tz)
  }

  /** Declaring a field: construction followed by attachment to the class. */
  function Declare(name: string, timezone: Value, autoNow: bool, autoNowAdd: bool,
                   default: Option<Value>, env: Env): (f: Field)
    ensures f.name == name && f.autoNow == autoNow && f.autoNowAdd == autoNowAdd && f.default == default
  {
    Field(name, ContributeToClass(InitTimezone(timezone, env), env), autoNow, autoNowAdd, default)
  }

  /** How every kind of `timezone` argument ends up bound:
      a catalogue name or a zone is fixed, nothing is the application zone,
      and every other text (attribute name or relation path) and every
      callable is resolved per record. */
  lemma DeclaredBinding(name: string, timezone: Value, autoNow: bool, autoNowAdd: bool,
                        default: Option<Value>, env: Env)
    ensures var b := Declare(name, timezone, autoNow, autoNowAdd, default, env).binding;
      && (timezone.TextVal? && timezone.text in env.zones ==> b == FixedZone(PytzTimezone(timezone.text, env).value))
      && (timezone.TextVal? && timezone.text !in env.zones ==> b == ResolvedBy(timezone))
      && (timezone.FuncVal? ==> b == ResolvedBy(timezone))
      && (timezone.ZoneVal? ==> b == FixedZone(timezone.zone))
      && (timezone.NoneVal? ==> b == FixedZone(env.defaultZone))
  {
  }

  /** The framework's date-time coercion (`DateTimeField.to_python`) as far
      as this field relies on it: date-times and `None` pass through, a date
      becomes a naive date-time at its midnight, any other value is
      rejected. */
  function ToPython(v: Value): (r: Result<Value>)
    ensures r.Ok? <==> v.NoneVal? || v.DateVal? || v.DayVal?
    ensures v.NoneVal? || v.DateVal? ==> r == Ok(v)
    ensures v.DayVal? ==> r == Ok(DateVal(Midnight(v.day)))
    ensures r.Ok? ==> r.value.NoneVal? || r.value.DateVal?
    ensures r.Err? ==> r.error == ValidationError
  {
    if v.NoneVal? || v.DateVal? then Ok(v)
    else if v.DayVal? then Ok(DateVal(Midnight(v.day)))
    else Err(ValidationError)
  }
}

=== FILE: descriptor.dfy ===
/** The per-record accessor installed under the field's name
    (`TestDateTimeDescriptor`). For each record it keeps three slots of the
    instance dictionary:
    - `name`: the value last assigned by the program, in the record's zone;
    - `<name>_utc`: the value loaded from storage, always in UTC;
    - `_<name>_cache`: the last localized date-time, or the resolved zone. */
module Descriptor {
  import opened Base
  import opened Clock
  import opened Records
  import opened Resolver
  import opened Declaration

  /** `getattr(instance, '<name>_timezone')`: the zone the record is shown in. */
  function RecordZone(f: Field, o: Obj, env: Env): (r: Result<Step>)
    ensures f.binding.FixedZone? ==> r == Ok(Step(ZoneVal(f.binding.zone), o))
    ensures f.binding.ResolvedBy? ==> r == GetTimezone(o, f.binding.source, CacheName(f.name), env)
    ensures r.Ok? ==> SameExcept(o, r.value.rec, {CacheName(f.name)})
  {
    match f.binding
    case FixedZone(z) => Ok(Step(ZoneVal(z), o))
    case ResolvedBy(source) => GetTimezone(o, source, CacheName(f.name), env)
  }

  /** `getattr(instance, '<name>_timezone')` with the resolver as the
      program writes it. It answers with the same zone as `RecordZone`, and
      fails exactly when `RecordZone` fails; only where the resolved zone is
      cached can differ. */
  function RecordZoneAsWritten(f: Field, o: Obj, env: Env): (r: Result<Step>)
    ensures f.binding.FixedZone? ==> r == RecordZone(f, o, env)
    ensures r.Ok? <==> RecordZone(f, o, env).Ok?
    ensures r.Ok? ==> r.value.value == RecordZone(f, o, env).value.value
  {
    match f.binding
    case FixedZone(z) => Ok(Step(ZoneVal(z), o))
    case ResolvedBy(source) => GetTimezoneAsWritten(o, source, CacheName(f.name), env)
  }

  /** The record's zone resolves, and to a zone. */
  predicate ZoneResolves(f: Field, o: Obj, env: Env) {
    RecordZone(f, o, env).Ok? && RecordZone(f, o, env).value.value.ZoneVal?
  }

  /** `__set__`: keep the assigned value in the `name` slot and forget both
      the cached value and any value loaded from storage. */
  function Set(f: Field, o: Obj, v: Value): (r: Obj)
    ensures f.name in r.dict && r.dict[f.name] == v
    ensures CacheName(f.name) !in r.dict && AttName(f.name) !in r.dict
    ensures SameExcept(o, r, {f.name, CacheName(f.name), AttName(f.name)})
  {
    Drop(Drop(Store(o, f.name, v), CacheName(f.name)), AttName(f.name))
  }

  /** Show an assigned date-time in the record's zone: a naive one is
      localized there (`tz.localize`), an aware one converted there
      (`astimezone`). Localizing with something that is not a zone has no
      `localize` method; converting to it is a type error. */
  function InZone(d: DateTime, tz: Value): (r: Result<DateTime>)
    ensures r.Ok? <==> tz.ZoneVal?
    ensures r.Ok? ==> r.value.Aware? && r.value.zone == tz.zone && r.value.instant == InstantIn(d, tz.zone)
    ensures d.Naive? && r.Ok? ==> WallClock(r.value) == d.wall
  {
    if !tz.ZoneVal? then Err(if d.Naive? then AttributeError else TypeError)
    else if d.Naive? then Ok(Localize(tz.zone, d.wall))
    else Ok(AsTimeZone(d, tz.zone))
  }

  /** `__get__` on a record. */
  function Get(f: Field, o: Obj, env: Env): (r: Result<Step>)
    // a cached date-time is returned unchanged
    ensures CacheName(f.name) in o.dict && o.dict[CacheName(f.name)].DateVal? ==>
      r == Ok(Step(o.dict[CacheName(f.name)], o))
    // only the cache slot is ever written, and a date-time result is cached
    ensures r.Ok? ==> SameExcept(o, r.value.rec, {CacheName(f.name)})
    ensures r.Ok? && r.value.value.DateVal? ==>
      CacheName(f.name) in r.value.rec.dict && r.value.rec.dict[CacheName(f.name)] == r.value.value
    // a loaded value is read as UTC and shown in the record's zone
    ensures !CachedDate(f, o) && AttName(f.name) in o.dict && r.Ok? ==>
      var stored := o.dict[AttName(f.name)];
      && (stored.NoneVal? ==> r.value == Step(NoneVal, Store(o, CacheName(f.name), NoneVal)))
      && (stored.DateVal? ==> ShownInRecordZone(f, o, env, AssumeUtc(stored.dt), r.value.value))
    ensures !CachedDate(f, o) && AttName(f.name) in o.dict && r.Err? ==>
      o.dict[AttName(f.name)].DateVal? || r.error == AttributeError
    ensures !CachedDate(f, o) && AttName(f.name) in o.dict && o.dict[AttName(f.name)].DateVal? ==>
      (r.Ok? <==> ZoneResolves(f, o, env))
    ensures !CachedDate(f, o) && AttName(f.name) in o.dict && o.dict[AttName(f.name)].NoneVal? ==>
      r == Ok(Step(NoneVal, Store(o, CacheName(f.name), NoneVal)))
    ensures !CachedDate(f, o) && AttName(f.name) in o.dict && LoadedOther(f, o) ==> r == Err(AttributeError)
    // otherwise an assigned date-time is read in the record's zone
    ensures !CachedDate(f, o) && AttName(f.name) !in o.dict && f.name in o.dict && r.Ok? ==>
      var raw := o.dict[f.name];
      && (!raw.DateVal? ==> r.value == Step(raw, o))
      && (raw.DateVal? ==> ShownInRecordZone(f, o, env, raw.dt, r.value.value))
    ensures !CachedDate(f, o) && AttName(f.name) !in o.dict && f.name in o.dict ==>
      var raw := o.dict[f.name];
      && (!raw.DateVal? ==> r.Ok?)
      && (raw.DateVal? ==> (r.Ok? <==> ZoneResolves(f, o, env)))
    ensures AttName(f.name) !in o.dict && f.name !in o.dict && !CachedDate(f, o) ==> r == Err(KeyError)
  {
    var cache := CacheName(f.name);
    if CachedDate(f, o) then Ok(Step(o.dict[cache], o))
    else if AttName(f.name) in o.dict then
      var stored := o.dict[AttName(f.name)];
      if stored.NoneVal? then Ok(Step(NoneVal, Store(o, cache, NoneVal)))
      else if !stored.DateVal? then Err(AttributeError)
      else
        var zoned :- RecordZone(f, o, env);
        if !zoned.value.ZoneVal? then Err(TypeError)
        else
          var v := DateVal(AsTimeZone(AssumeUtc(stored.dt), zoned.value.zone));
          Ok(Step(v, Store(zoned.rec, cache, v)))
    else if f.name !in o.dict then Err(KeyError)
    else
      var raw := o.dict[f.name];
      if !raw.DateVal? then Ok(Step(raw, o))
      else
        var zoned :- RecordZone(f, o, env);
        var shown :- InZone(raw.dt, zoned.value);
        Ok(Step(DateVal(shown), Store(zoned.rec, cache, DateVal(shown))))
  }

  /** The storage slot holds something that is neither `None` nor a
      date-time. */
  predicate LoadedOther(f: Field, o: Obj)
    requires AttName(f.name) in o.dict
  {
    !o.dict[AttName(f.name)].NoneVal? && !o.dict[AttName(f.name)].DateVal?
  }

  /** The cache slot holds a date-time. */
  predicate CachedDate(f: Field, o: Obj) {
    CacheName(f.name) in o.dict && o.dict[CacheName(f.name)].DateVal?
  }

  /** The record resolves to a zone, and `v` is `d` shown in that zone, a
      naive `d` being read as a wall clock there. */
  predicate ShownInRecordZone(f: Field, o: Obj, env: Env, d: DateTime, v: Value) {
    var z := RecordZone(f, o, env);
    && z.Ok? && z.value.value.ZoneVal?
    && v == DateVal(Aware(InstantIn(d, z.value.value.zone), z.value.value.zone))
  }

  /** `get_for_save`: the value to hand to storage, in UTC. A loaded value is
      read as UTC; an assigned value is coerced, read in the record's zone
      when naive, and converted to UTC. The cache is not consulted for the
      value itself, though resolving the record's zone may fill it. */
  function GetForSave(f: Field, o: Obj, env: Env): (r: Result<Step>)
    ensures r.Ok? ==> SameExcept(o, r.value.rec, {CacheName(f.name)})
    ensures r.Ok? ==> r.value.value.NoneVal? || (r.value.value.DateVal? && r.value.value.dt.Aware?)
    // a loaded value: naive means UTC, and the record's zone is not needed
    ensures AttName(f.name) in o.dict ==>
      var stored := o.dict[AttName(f.name)];
      && (stored.NoneVal? ==> r == Ok(Step(NoneVal, o)))
      && (stored.DateVal? ==> r.Ok? && r.value.rec == o && r.value.value.DateVal? && r.value.value.dt.instant == InstantIn(stored.dt, UTC))
      && (stored.DateVal? && stored.dt.Naive? ==> r.value.value.dt.zone == UTC)
      && (stored.DateVal? && stored.dt.Aware? ==> r == Ok(Step(stored, o)))
      && (!stored.NoneVal? && !stored.DateVal? ==> r == Err(AttributeError))
    // an assigned value: read in the record's zone, handed over in UTC
    ensures AttName(f.name) !in o.dict && f.name in o.dict ==>
      var raw := o.dict[f.name];
      && (!raw.NoneVal? && !raw.DateVal? && !raw.DayVal? ==> r == Err(ValidationError))
      && (raw.NoneVal? ==> r == Ok(Step(NoneVal, o)))
      && (raw.DateVal? && raw.dt.Aware? ==> r == Ok(Step(DateVal(Aware(raw.dt.instant, UTC)), o)))
      && (raw.DateVal? && raw.dt.Naive? && r.Ok? ==> SavedFromRecordZone(f, o, env, raw.dt.wall, r.value))
      && (raw.DateVal? && raw.dt.Naive? ==> (r.Ok? <==> ZoneResolves(f, o, env)))
      && (raw.DayVal? && r.Ok? ==> SavedFromRecordZone(f, o, env, Midnight(raw.day).wall, r.value))
      && (raw.DayVal? ==> (r.Ok? <==> ZoneResolves(f, o, env)))
    ensures AttName(f.name) !in o.dict && f.name !in o.dict ==> r == Err(KeyError)
  {
    if AttName(f.name) in o.dict then
      var stored := o.dict[AttName(f.name)];
      if stored.NoneVal? then Ok(Step(NoneVal, o))
      else if !stored.DateVal? then Err(AttributeError)
      else Ok(Step(DateVal(AssumeUtc(stored.dt)), o))
    else if f.name !in o.dict then Err(KeyError)
    else
      var v :- ToPython(o.dict[f.name]);
      if v.NoneVal? then Ok(Step(NoneVal, o))
      else if v.dt.Aware? then Ok(Step(DateVal(AsTimeZone(v.dt, UTC)), o))
      else
        var zoned :- RecordZone(f, o, env);
        if !zoned.value.ZoneVal? then Err(AttributeError)
        else Ok(Step(DateVal(AsTimeZone(Localize(zoned.value.zone, v.dt.wall), UTC)), zoned.rec))
  }

  /** `s` is the naive reading `wall` taken in the zone the record resolves
      to and expressed in UTC, with the record as the resolution left it. */
  predicate SavedFromRecordZone(f: Field, o: Obj, env: Env, wall: int, s: Step) {
    var z := RecordZone(f, o, env);
    && z.Ok? && z.value.value.ZoneVal?
    && s == Step(DateVal(Aware(InstantIn(Naive(wall), z.value.value.zone), UTC)), z.value.rec)
  }

  /** A second read with no assignment in between returns the same value and
      leaves the record as the first read left it. */
  lemma GetRepeat(f: Field, o: Obj, env: Env)
    requires Get(f, o, env).Ok?
    ensures var s := Get(f, o, env).value; Get(f, s.rec, env) == Ok(s)
  {
    var s := Get(f, o, env).value;
    if !CachedDate(f, o) && AttName(f.name) in o.dict && o.dict[AttName(f.name)].NoneVal? {
      assert Store(s.rec, CacheName(f.name), NoneVal) == s.rec;
    }
  }

  /** Saving twice with no assignment in between hands storage the same
      value; the second call finds whatever zone the first one cached. */
  lemma GetForSaveRepeat(f: Field, o: Obj, env: Env)
    requires GetForSave(f, o, env).Ok?
    ensures var s := GetForSave(f, o, env).value; GetForSave(f, s.rec, env) == Ok(s)
  {
  }

  /** Two results denote the same moment: both `None`, or both date-times
      at the same instant (their zones may differ). */
  predicate SameMoment(a: Value, b: Value) {
    || (a.NoneVal? && b.NoneVal?)
    || (a.DateVal? && b.DateVal? && a.dt.Aware? && b.dt.Aware? && a.dt.instant == b.dt.instant)
  }

  /** An assigned calendar date, not yet stored: a read returns the date
      itself, while a save hands over its midnight. */
  predicate AssignedDay(f: Field, o: Obj) {
    AttName(f.name) !in o.dict && f.name in o.dict && o.dict[f.name].DayVal?
  }

  /** When nothing stale is cached, what a read shows and what a save stores
      denote the same moment, whichever slot holds the data. The exception is
      an assigned date: the read returns it untouched (it is not a
      `datetime`), and the save stores its midnight in the record's zone. */
  lemma GetForSaveAgreesWithGet(f: Field, o: Obj, env: Env)
    requires !CachedDate(f, o)
    requires Get(f, o, env).Ok? && GetForSave(f, o, env).Ok?
    ensures !AssignedDay(f, o) ==> SameMoment(Get(f, o, env).value.value, GetForSave(f, o, env).value.value)
    ensures AssignedDay(f, o) ==>
      && Get(f, o, env) == Ok(Step(o.dict[f.name], o))
      && SavedFromRecordZone(f, o, env, Midnight(o.dict[f.name].day).wall, GetForSave(f, o, env).value)
  {
  }

  /** After a read has filled the cache, a save still stores the moment the
      read showed: the cached date-time carries the zone the save needs. An
      assigned date is neither converted nor cached by the read. */
  lemma GetForSaveAfterGet(f: Field, o: Obj, env: Env)
    requires !CachedDate(f, o)
    requires Get(f, o, env).Ok?
    requires GetForSave(f, Get(f, o, env).value.rec, env).Ok?
    ensures var s := Get(f, o, env).value;
      !AssignedDay(f, o) ==> SameMoment(s.value, GetForSave(f, s.rec, env).value.value)
    ensures AssignedDay(f, o) ==> Get(f, o, env).value.rec == o
  {
  }

  /** Assignment erases everything the record remembered about the field:
      records that differ only in the field's cache and storage slots are
      the same after the same assignment. */
  lemma SetForgetsPrevious(f: Field, a: Obj, b: Obj, v: Value)
    requires SameExcept(a, b, {CacheName(f.name), AttName(f.name)})
    ensures Set(f, a, v) == Set(f, b, v)
  {
  }

  /** Cache invalidation: after any successful read, an assignment followed
      by a read shows the new value exactly as it would on a record that was
      never read. */
  lemma ReadAfterSetIgnoresEarlierRead(f: Field, o: Obj, v: Value, env: Env)
    requires Get(f, o, env).Ok?
    ensures Get(f, Set(f, Get(f, o, env).value.rec, v), env) == Get(f, Set(f, o, v), env)
  {
    SetForgetsPrevious(f, Get(f, o, env).value.rec, o, v);
  }

  /** A read right after an assignment reflects the assigned value: a
      non-date-time comes back as it is, a date-time comes back at the
      instant it denotes in the record's zone, shown in that zone. */
  lemma ReadAfterSet(f: Field, o: Obj, v: Value, env: Env)
    requires Get(f, Set(f, o, v), env).Ok?
    ensures var s := Get(f, Set(f, o, v), env).value;
      && (!v.DateVal? ==> s == Step(v, Set(f, o, v)))
      && (v.DateVal? ==> ShownInRecordZone(f, Set(f, o, v), env, v.dt, s.value))
  {
  }

  /** The moment stored after assigning a naive date-time is that reading
      taken in the record's own zone. */
  lemma SaveAfterNaiveSet(f: Field, o: Obj, wall: int, env: Env)
    requires GetForSave(f, Set(f, o, DateVal(Naive(wall))), env).Ok?
    ensures var o' := Set(f, o, DateVal(Naive(wall)));
      SavedFromRecordZone(f, o', env, wall, GetForSave(f, o', env).value)
  {
  }
}

=== FILE: paths.dfy ===
/** Relation paths: a time-zone source such as `owner__profile__tz` names a
    chain of relations separated by a double underscore. This module gives the
    substring test, `str.split('__')` and `'__'.join(parts)` the resolver uses. */
module Paths {

  const Sep: string := "__"

  /** `'__' in s`. */
  predicate ContainsSep(s: string)
    decreases |s|
  {
    |s| >= 2 && (s[..2] == Sep || ContainsSep(s[1..]))
  }

  /** The separator occurs in `s` exactly when two adjacent characters of `s`
      are both underscores. */
  lemma {:induction false} ContainsSepAt(s: string)
    ensures ContainsSep(s) <==> exists i :: 0 <= i < |s| - 1 && s[i] == '_' && s[i + 1] == '_'
    decreases |s|
  {
    if |s| >= 2 {
      ContainsSepAt(s[1..]);
      if s[..2] == Sep {
        assert s[0] == s[..2][0] && s[1] == s[..2][1];
      }
      if ContainsSep(s[1..]) {
        var i :| 0 <= i < |s| - 2 && s[1..][i] == '_' && s[1..][i + 1] == '_';
        assert s[i + 1] == '_' && s[i + 2] == '_';
      }
      if exists i :: 0 <= i < |s| - 1 && s[i] == '_' && s[i + 1] == '_' {
        var i :| 0 <= i < |s| - 1 && s[i] == '_' && s[i + 1] == '_';
        if i > 0 {
          assert s[1..][i - 1] == '_' && s[1..][i] == '_';
        } else {
          assert s[..2] == Sep;
        }
      }
    }
  }

  /** `s.split('__')`: cut at each separator, scanning from the left, so
      `"a___b"` splits into `"a"` and `"_b"`. */
  function Split(s: string): (parts: seq<string>)
    ensures |parts| >= 1
    decreases |s|
  {
    if |s| < 2 then [s]
    else if s[..2] == Sep then [""] + Split(s[2..])
    else
      var rest := Split(s[1..]);
      [[s[0]] + rest[0]] + rest[1..]
  }

  /** `'__'.join(parts)`. */
  function Join(parts: seq<string>): string
    requires |parts| >= 1
    decreases |parts|
  {
    if |parts| == 1 then parts[0] else parts[0] + Sep + Join(parts[1..])
  }

  /** Joining the pieces of a split gives back the original text. */
  lemma {:induction false} JoinSplit(s: string)
    ensures Join(Split(s)) == s
    decreases |s|
  {
    if |s| < 2 {
    } else if s[..2] == Sep {
      JoinSplit(s[2..]);
      assert s == Sep + s[2..];
    } else {
      JoinSplit(s[1..]);
      JoinPrepend(s[0], Split(s[1..]));
      assert s == [s[0]] + s[1..];
    }
  }

  /** Gluing a character to the front of the first part glues it to the
      front of the joined text. */
  lemma {:induction false} JoinPrepend(c: char, parts: seq<string>)
    requires |parts| >= 1
    ensures Join([[c] + parts[0]] + parts[1..]) == [c] + Join(parts)
  {
  }

  /** Joining cuts anywhere between parts: the joined whole is the joined
      front, the separator, and the joined back. With `JoinSplit`, the
      remainder of a path after some leading parts is exactly the text that
      follows those parts and their separators. */
  lemma {:induction false} JoinAt(parts: seq<string>, k: nat)
    requires 1 <= k < |parts|
    ensures Join(parts) == Join(parts[..k]) + Sep + Join(parts[k..])
    decreases k
  {
    if k > 1 {
      JoinAt(parts[1..], k - 1);
      assert parts[1..][..k - 1] == parts[..k][1..];
      assert parts[1..][k - 1..] == parts[k..];
    } else {
      assert parts[..1] == [parts[0]];
      assert parts[1..] == parts[k..];
    }
  }

  /** A text splits into more than one piece exactly when it contains the
      separator; this is why the resolver's `'__' in timezone` test decides
      between an attribute name and a relation path. */
  lemma {:induction false} SplitMany(s: string)
    ensures |Split(s)| > 1 <==> ContainsSep(s)
    decreases |s|
  {
    if |s| >= 2 && s[..2] != Sep {
      SplitMany(s[1..]);
    }
  }

  /** A text without the separator is a single piece. */
  lemma SplitSingle(s: string)
    requires !ContainsSep(s)
    ensures Split(s) == [s]
  {
    SplitMany(s);
    JoinSplit(s);
  }

  /** A leading part that neither contains the separator nor ends in an
      underscore is cut off whole by the first separator after it. (A part
      ending in `_` would not be: `"x_" + "__" + "y"` splits as `"x"`, `"_y"`.) */
  lemma {:induction false} SplitPrefix(a: string, b: string)
    requires !ContainsSep(a + "_")
    ensures Split(a + Sep + b) == [a] + Split(b)
    decreases |a|
  {
    var s := a + Sep + b;
    if |a| == 0 {
      assert s == Sep + b;
      assert s[2..] == b;
    } else {
      var a' := a[1..];
      assert (a + "_")[1..] == a' + "_";
      if a' == "" {
        assert s[..2] != Sep by { assert (a + "_")[..2] == s[..2]; }
        assert !ContainsSep(a' + "_");
      } else {
        assert s[..2] == (a + "_")[..2];
      }
      SplitPrefix(a', b);
      assert s[1..] == a' + Sep + b;
      assert a == [a[0]] + a';
    }
  }
}

=== FILE: records.dfy ===
/** Model instances as the program sees them: an instance dictionary of
    dynamically typed values, plus the attributes its class provides. */
module Records {
  import opened Base
  import opened Clock

  /** A dynamically typed value, as stored in an instance dictionary. */
  datatype Value =
    | NoneVal
    | DateVal(dt: DateTime)
    | DayVal(day: int)      // a calendar date (`datetime.date`), by day number
    | ZoneVal(zone: Zone)
    | TextVal(text: string)
    | FuncVal(ret: Value)   // a zero-argument callable, known by what it returns
    | ObjVal(obj: Obj)      // a related model instance
    | OtherVal(tag: int)    // anything else

  /** A model instance: its own dictionary, then its class's attributes. */
  datatype Obj = Obj(dict: map<string, Value>, cls: map<string, Value>)

  /** The result of an access that may also update the instance. */
  datatype Step = Step(value: Value, rec: Obj)

  /** `getattr(instance, name)` for plain attributes: the instance
      dictionary first, then the class. */
  function GetAttr(o: Obj, name: string): (r: Result<Value>)
    ensures r.Ok? <==> name in o.dict || name in o.cls
    ensures name in o.dict ==> r == Ok(o.dict[name])
    ensures r.Err? ==> r.error == AttributeError
  {
    if name in o.dict then Ok(o.dict[name])
    else if name in o.cls then Ok(o.cls[name])
    else Err(AttributeError)
  }

  /** `instance.__dict__[key] = v`. */
  function Store(o: Obj, key: string, v: Value): (r: Obj)
    ensures r.cls == o.cls
    ensures r.dict.Keys == o.dict.Keys + {key}
    ensures key in r.dict && r.dict[key] == v
    ensures forall k :: k in o.dict && k != key ==> k in r.dict && r.dict[k] == o.dict[k]
  {
    o.(dict := o.dict[key := v])
  }

  /** `del instance.__dict__[key]` when present. */
  function Drop(o: Obj, key: string): (r: Obj)
    ensures r.cls == o.cls
    ensures r.dict.Keys == o.dict.Keys - {key}
    ensures forall k :: k in r.dict ==> r.dict[k] == o.dict[k]
  {
    o.(dict := o.dict - {key})
  }

  /** Two instances that differ at most in the entries named in `keys`. */
  ghost predicate SameExcept(a: Obj, b: Obj, keys: set<string>) {
    && a.cls == b.cls
    && (forall k :: k !in keys ==> (k in a.dict <==> k in b.dict))
    && (forall k :: k !in keys && k in a.dict ==> k in b.dict && a.dict[k] == b.dict[k])
  }

  /** The related instance reached from `o` by following the cached
      relations named in `keys`, when each of them holds an instance. */
  function Follow(o: Obj, keys: seq<string>): (r: Option<Obj>)
    ensures |keys| == 0 ==> r == Some(o)
    decreases |keys|
  {
    if |keys| == 0 then Some(o)
    else if keys[0] in o.dict && o.dict[keys[0]].ObjVal? then Follow(o.dict[keys[0]].obj, keys[1..])
    else None
  }

  /** Store into the related instance reached from `o` by following the
      cached relations named in `path`. Because instances are shared objects
      in the program, writing into a related instance is seen through every
      record that holds it; with values, the path back to `o` is rebuilt. */
  function StoreAt(o: Obj, path: seq<string>, key: string, v: Value): (r: Obj)
    ensures |path| == 0 ==> r == Store(o, key, v)
    ensures |path| > 0 ==> SameExcept(o, r, {path[0]})
    decreases |path|
  {
    if |path| == 0 then Store(o, key, v)
    else if path[0] in o.dict && o.dict[path[0]].ObjVal? then
      Store(o, path[0], ObjVal(StoreAt(o.dict[path[0]].obj, path[1..], key, v)))
    else o
  }

  /** Storing along a path changes the instance the path reaches: following
      the same path afterwards finds that instance with the entry stored. */
  lemma {:induction false} StoreAtReached(o: Obj, path: seq<string>, key: string, v: Value)
    requires Follow(o, path).Some?
    ensures Follow(StoreAt(o, path, key, v), path) == Some(Store(Follow(o, path).value, key, v))
    decreases |path|
  {
    if |path| > 0 {
      var next := o.dict[path[0]].obj;
      StoreAtReached(next, path[1..], key, v);
      assert StoreAt(o, path, key, v).dict[path[0]] == ObjVal(StoreAt(next, path[1..], key, v));
    }
  }
}

=== FILE: resolver.dfy ===
/** The per-record time-zone resolver (`get_timezone` in timezones/fields.py).
    It is installed as the `<name>_timezone` property of a model when a field's
    zone comes from a callable or from a lookup, and caches what it finds in
    the field's cache slot of the record. */
module Resolver {
  import opened Base
  import opened Clock
  import opened Paths
  import opened Records

  /** Process-wide configuration the resolver and the field read.
      - `defaultZone`: the application zone (the `TIME_ZONE` setting);
      - `zones`: the zone catalogue (`pytz.all_timezones_set`), each name
        with the zone `pytz.timezone` gives for it;
      - `query`: the single-column query on a record's own table, by primary
        key, for a relation path; `None` when the query returns no row. */
  datatype Env = Env(
    defaultZone: Zone,
    zones: map<string, Zone>,
    query: (Obj, string) -> Option<Value>)

  /** `name.upper() == 'UTC'`, the spelling test `pytz.timezone` makes
      before it consults the catalogue. */
  predicate IsUtcName(name: string) {
    && |name| == 3
    && (name[0] == 'u' || name[0] == 'U')
    && (name[1] == 't' || name[1] == 'T')
    && (name[2] == 'c' || name[2] == 'C')
  }

  /** `pytz.timezone(name)`: any spelling of "utc" is UTC, any other name
      must be in the catalogue. */
  function PytzTimezone(name: string, env: Env): (r: Option<Zone>)
    ensures IsUtcName(name) ==> r == Some(UTC)
    ensures !IsUtcName(name) ==> (r.Some? <==> name in env.zones)
    ensures !IsUtcName(name) && r.Some? ==> r.value == env.zones[name]
  {
    if IsUtcName(name) then Some(UTC)
    else if name in env.zones then Some(env.zones[name])
    else None
  }

  /** The zone carried by a cached value: a cached date-time answers with
      its `tzinfo` (none for a naive one), anything else answers as itself. */
  function CachedZone(v: Value): (r: Value)
    ensures v.DateVal? && v.dt.Aware? ==> r == ZoneVal(v.dt.zone)
    ensures v.DateVal? && v.dt.Naive? ==> r == NoneVal
    ensures !v.DateVal? ==> r == v
  {
    if v.DateVal? then (if v.dt.Aware? then ZoneVal(v.dt.zone) else NoneVal) else v
  }

  /** The dictionary key under which a related instance is cached. */
  function RelationCacheKey(part: string): string {
    "_" + part + "_cache"
  }

  /** The cache keys of a chain of relation names, one per name. */
  function CacheKeys(parts: seq<string>): (keys: seq<string>) {
    seq(|parts|, i requires 0 <= i < |parts| => RelationCacheKey(parts[i]))
  }

  /** One more relation in front of a chain of cache keys. */
  lemma CacheKeysCons(parts: seq<string>, keys: seq<string>)
    requires 1 <= |parts| && |keys| < |parts|
    requires keys == CacheKeys(parts[1..][..|keys|])
    ensures [RelationCacheKey(parts[0])] + keys == CacheKeys(parts[..|keys| + 1])
    ensures ([RelationCacheKey(parts[0])] + keys)[1..] == keys
  {
    assert parts[1..][..|keys|] == parts[..|keys| + 1][1..];
  }

  /** Where a walk along cached relations stopped: the instance reached, the
      parts of the path still to resolve, and the cache keys followed. */
  datatype Walked = Walked(at: Obj, rest: seq<string>, keys: seq<string>)

  /** Follow `_<part>_cache` entries from `o` while they are present.
      Walking onto something that is not a model instance fails, and so does
      a path whose every part was cached (the next look at the first part
      finds an empty list). */
  function Walk(o: Obj, parts: seq<string>): (r: Result<Walked>)
    ensures r.Ok? ==> 1 <= |r.value.rest| <= |parts|
    ensures r.Ok? ==> r.value.rest == parts[|parts| - |r.value.rest|..]
    ensures r.Ok? ==> RelationCacheKey(r.value.rest[0]) !in r.value.at.dict
    ensures r.Ok? ==> |r.value.keys| == |parts| - |r.value.rest|
    ensures r.Ok? ==> r.value.keys == CacheKeys(parts[..|r.value.keys|])
    ensures r.Ok? ==> Follow(o, r.value.keys) == Some(r.value.at)
    ensures r.Err? ==> r.error == IndexError || r.error == AttributeError
    ensures |parts| > 0 && RelationCacheKey(parts[0]) !in o.dict ==> r == Ok(Walked(o, parts, []))
    ensures r.Ok? && |r.value.keys| > 0 ==> r.value.keys[0] in o.dict && o.dict[r.value.keys[0]].ObjVal?
    decreases |parts|
  {
    if |parts| == 0 then Err(IndexError)
    else
      var key := RelationCacheKey(parts[0]);
      if key !in o.dict then Ok(Walked(o, parts, []))
      else match o.dict[key]
        case ObjVal(next) =>
          var w :- Walk(next, parts[1..]);
          CacheKeysCons(parts, w.keys);
          Ok(w.(keys := [key] + w.keys))
        case _ => if |parts| == 1 then Err(IndexError) else Err(AttributeError)
  }

  /** The walk is the longest chain of cached relations along the path:
      wherever following the first `n` parts' cache keys reaches an instance,
      the walk stops there when the next part is not cached, fails when the
      next part is cached as something other than an instance (with
      `IndexError` when it is the last part), and fails with `IndexError`
      when no part is left. Together with the ensures of `Walk`, this
      decides every walk. */
  lemma {:induction false} WalkReaches(o: Obj, parts: seq<string>, n: nat, at: Obj)
    requires n <= |parts|
    requires Follow(o, CacheKeys(parts[..n])) == Some(at)
    ensures n == |parts| ==> Walk(o, parts) == Err(IndexError)
    ensures n < |parts| && RelationCacheKey(parts[n]) !in at.dict ==>
      Walk(o, parts) == Ok(Walked(at, parts[n..], CacheKeys(parts[..n])))
    ensures n < |parts| && RelationCacheKey(parts[n]) in at.dict && !at.dict[RelationCacheKey(parts[n])].ObjVal? ==>
      Walk(o, parts) == Err(if n == |parts| - 1 then IndexError else AttributeError)
    decreases n
  {
    if n == 0 {
      assert CacheKeys(parts[..0]) == [];
      assert parts[0..] == parts;
    } else {
      var key := RelationCacheKey(parts[0]);
      var ks := CacheKeys(parts[..n]);
      assert ks[0] == key;
      assert ks[1..] == CacheKeys(parts[1..][..n - 1]);
      var next := o.dict[key].obj;
      WalkReaches(next, parts[1..], n - 1, at);
      assert parts[1..][n - 1..] == parts[n..];
      assert [key] + ks[1..] == ks;
    }
  }

  /** What a resolution found before string coercion, and the relation cache
      keys it followed to get there. */
  datatype Found = Found(value: Value, walked: seq<string>)

  /** Turn a query result into the value of its first column of its first
      row (`[0][0]`). */
  function FirstRow(row: Option<Value>): (r: Result<Value>)
    ensures row.Some? <==> r.Ok?
    ensures row.Some? ==> r.value == row.value
    ensures row.None? ==> r == Err(IndexError)
  {
    match row
    case Some(v) => Ok(v)
    case None => Err(IndexError)
  }

  /** `if callable(v): v = v()`. */
  function Called(v: Value): Value {
    if v.FuncVal? then v.ret else v
  }

  /** `if v is None: v = default_tz`. */
  function OrDefault(v: Value, env: Env): Value {
    if v.NoneVal? then ZoneVal(env.defaultZone) else v
  }

  /** The source-dependent part of the resolver:
      - a callable source is called;
      - a name without `__` is read as an attribute, and called if callable;
      - a `__` path is walked through cached relations; what remains is
        queried when it is longer than one part and read as an attribute
        (without calling it) otherwise; a missing answer there means the
        application zone;
      - anything else cannot be tested for `__` and fails. */
  function Locate(o: Obj, source: Value, env: Env): (r: Result<Found>)
    ensures source.FuncVal? ==> r == Ok(Found(source.ret, []))
    ensures !source.FuncVal? && !source.TextVal? ==> r == Err(TypeError)
    ensures source.TextVal? && !ContainsSep(source.text) ==>
      var name := source.text;
      && (name in o.dict ==> r == Ok(Found(Called(o.dict[name]), [])))
      && (name !in o.dict && name in o.cls ==> r == Ok(Found(Called(o.cls[name]), [])))
      && (name !in o.dict && name !in o.cls ==> r == Err(AttributeError))
    ensures source.TextVal? && ContainsSep(source.text) ==> r == FollowPath(o, Split(source.text), env)
    ensures r.Ok? && |r.value.walked| > 0 ==> source.TextVal? && ContainsSep(source.text)
    ensures r.Ok? && |r.value.walked| > 0 ==> r.value.walked[0] in o.dict && o.dict[r.value.walked[0]].ObjVal?
  {
    match source
    case FuncVal(ret) => Ok(Found(ret, []))
    case TextVal(s) =>
      if !ContainsSep(s) then
        var a :- GetAttr(o, s);
        Ok(Found(Called(a), []))
      else FollowPath(o, Split(s), env)
    case _ => Err(TypeError)
  }

  /** What follows the walk of a relation path: a remainder of several
      parts is queried on the instance reached by its joined name, and a
      single part is read as an attribute there without calling it; `None`
      from either means the application zone. */
  function AfterWalk(w: Walked, env: Env): (r: Result<Found>)
    requires |w.rest| >= 1
    ensures r.Ok? ==> r.value.walked == w.keys
    ensures |w.rest| > 1 && env.query(w.at, Join(w.rest)).None? ==> r == Err(IndexError)
    ensures |w.rest| > 1 && env.query(w.at, Join(w.rest)).Some? ==>
      r == Ok(Found(OrDefault(env.query(w.at, Join(w.rest)).value, env), w.keys))
    ensures |w.rest| == 1 && w.rest[0] in w.at.dict ==>
      r == Ok(Found(OrDefault(w.at.dict[w.rest[0]], env), w.keys))
    ensures |w.rest| == 1 && w.rest[0] !in w.at.dict && w.rest[0] in w.at.cls ==>
      r == Ok(Found(OrDefault(w.at.cls[w.rest[0]], env), w.keys))
    ensures |w.rest| == 1 && w.rest[0] !in w.at.dict && w.rest[0] !in w.at.cls ==> r == Err(AttributeError)
    ensures r.Ok? ==> !r.value.value.NoneVal?
  {
    var v :- if |w.rest| > 1 then FirstRow(env.query(w.at, Join(w.rest))) else GetAttr(w.at, w.rest[0]);
    Ok(Found(OrDefault(v, env), w.keys))
  }

  /** The relation-path branch of `Locate`, on the parts of the path: walk
      the cached relations, then read what remains on the instance reached. */
  function FollowPath(o: Obj, parts: seq<string>, env: Env): (r: Result<Found>)
    ensures Walk(o, parts).Err? ==> r == Err(Walk(o, parts).error)
    ensures Walk(o, parts).Ok? ==> r == AfterWalk(Walk(o, parts).value, env)
    ensures r.Ok? ==> Follow(o, r.value.walked).Some?
    ensures r.Ok? && |r.value.walked| > 0 ==> r.value.walked[0] in o.dict && o.dict[r.value.walked[0]].ObjVal?
  {
    var w :- Walk(o, parts);
    AfterWalk(w, env)
  }

  /** `pytz.timezone` on text; other values pass through. */
  function Coerce(v: Value, env: Env): (r: Result<Value>)
    ensures v.TextVal? ==> (r.Ok? <==> PytzTimezone(v.text, env).Some?)
    ensures v.TextVal? && PytzTimezone(v.text, env).Some? ==> r == Ok(ZoneVal(PytzTimezone(v.text, env).value))
    ensures r.Err? ==> r.error == UnknownTimeZone
    ensures !v.TextVal? ==> r == Ok(v)
    ensures r.Ok? ==> !r.value.TextVal?
  {
    match v
    case TextVal(name) =>
      var z := PytzTimezone(name, env);
      if z.Some? then Ok(ZoneVal(z.value)) else Err(UnknownTimeZone)
    case _ => Ok(v)
  }

  /** The resolver with its cache write aimed at the record itself. A cached
      value answers without any write; otherwise the coerced zone of what
      `Locate` finds is stored in the record's cache slot and nothing else
      changes. */
  function GetTimezone(o: Obj, source: Value, cacheName: string, env: Env): (r: Result<Step>)
    ensures cacheName in o.dict ==> r == Ok(Step(CachedZone(o.dict[cacheName]), o))
    ensures cacheName !in o.dict && r.Ok? ==>
      && r.value.rec == Store(o, cacheName, r.value.value)
      && !r.value.value.TextVal?
    ensures cacheName !in o.dict && r.Ok? ==> SameExcept(o, r.value.rec, {cacheName})
    ensures cacheName !in o.dict ==>
      var f := Locate(o, source, env);
      && (f.Err? ==> r == Err(f.error))
      && (f.Ok? ==> (r.Ok? <==> Coerce(f.value.value, env).Ok?))
      && (f.Ok? && r.Ok? ==> r.value.value == Coerce(f.value.value, env).value)
      && (f.Ok? && r.Err? ==> r.error == UnknownTimeZone)
    ensures cacheName !in o.dict && source.TextVal? && !ContainsSep(source.text) ==>
      var name := source.text;
      && (name !in o.dict && name !in o.cls ==> r == Err(AttributeError))
      && (name in o.dict && Coerce(Called(o.dict[name]), env).Ok? ==>
            r.Ok? && r.value.value == Coerce(Called(o.dict[name]), env).value)
  {
    if cacheName in o.dict then Ok(Step(CachedZone(o.dict[cacheName]), o))
    else
      var f :- Locate(o, source, env);
      var z :- Coerce(f.value, env);
      Ok(Step(z, Store(o, cacheName, z)))
  }

  /** The resolver as the program writes it: during a relation walk the
      variable holding the record is rebound to each related instance, so the
      final cache write lands in the last instance reached, not in the record. */
  function GetTimezoneAsWritten(o: Obj, source: Value, cacheName: string, env: Env): (r: Result<Step>)
    ensures cacheName in o.dict ==> r == Ok(Step(CachedZone(o.dict[cacheName]), o))
    ensures r.Ok? <==> GetTimezone(o, source, cacheName, env).Ok?
    ensures r.Ok? ==> r.value.value == GetTimezone(o, source, cacheName, env).value.value
    ensures cacheName !in o.dict && r.Ok? ==>
      r.value.rec == StoreAt(o, Locate(o, source, env).value.walked, cacheName, r.value.value)
  {
    if cacheName in o.dict then Ok(Step(CachedZone(o.dict[cacheName]), o))
    else
      var f :- Locate(o, source, env);
      var z :- Coerce(f.value, env);
      Ok(Step(z, StoreAt(o, f.walked, cacheName, z)))
  }

  /** A second resolution after a successful one finds the cache and answers
      with the zone of what the first one stored, changing nothing. */
  lemma GetTimezoneRepeat(o: Obj, source: Value, cacheName: string, env: Env)
    requires GetTimezone(o, source, cacheName, env).Ok?
    ensures var s := GetTimezone(o, source, cacheName, env).value;
      GetTimezone(s.rec, source, cacheName, env) == Ok(Step(CachedZone(s.value), s.rec))
  {
  }

  /** A callable or attribute source yielding a zone resolves to that zone;
      an attribute that holds `None` stays `None` (only a relation path falls
      back to the application zone). */
  lemma AttributeNoneIsNotDefaulted(o: Obj, name: string, cacheName: string, env: Env)
    requires !ContainsSep(name) && cacheName !in o.dict
    requires name in o.dict && o.dict[name] == NoneVal
    ensures GetTimezone(o, TextVal(name), cacheName, env) == Ok(Step(NoneVal, Store(o, cacheName, NoneVal)))
  {
  }

  /** A relation path whose final attribute holds `None` resolves to the
      application zone. */
  lemma PathNoneIsDefaulted(o: Obj, rel: string, attr: string, cacheName: string, env: Env)
    requires cacheName !in o.dict
    requires !ContainsSep(rel + "_") && !ContainsSep(attr)
    requires RelationCacheKey(rel) in o.dict && o.dict[RelationCacheKey(rel)].ObjVal?
    requires var related := o.dict[RelationCacheKey(rel)].obj;
      RelationCacheKey(attr) !in related.dict && attr in related.dict && related.dict[attr] == NoneVal
    ensures GetTimezone(o, TextVal(rel + Sep + attr), cacheName, env)
      == Ok(Step(ZoneVal(env.defaultZone), Store(o, cacheName, ZoneVal(env.defaultZone))))
  {
    var related := o.dict[RelationCacheKey(rel)].obj;
    LocateThroughCachedRelation(o, related, rel, attr, env);
  }

  /** The as-written resolver never caches on the record once its walk has
      followed a relation: the record's cache slot stays empty, so the next
      resolution that finds no date-time cached there walks again, while the
      corrected resolver fills the slot. */
  lemma AsWrittenMissesRecord(o: Obj, source: Value, cacheName: string, env: Env)
    requires cacheName !in o.dict
    requires Locate(o, source, env).Ok? && |Locate(o, source, env).value.walked| > 0
    requires GetTimezoneAsWritten(o, source, cacheName, env).Ok?
    ensures cacheName !in GetTimezoneAsWritten(o, source, cacheName, env).value.rec.dict
    ensures cacheName in GetTimezone(o, source, cacheName, env).value.rec.dict
  {
  }

  /** The shape of the failing case: a record whose zone source is
      `rel__attr`, with the related instance already cached under
      `_<rel>_cache` and holding the zone name in `attr`. The as-written
      resolver stores the record's zone inside the related instance (where a
      field of the same name on that instance would later read it as its own)
      and leaves the record's slot empty; the corrected one caches on the
      record. */
  lemma AsWrittenCachesOnRelated(rel: string, attr: string, zoneName: string, cacheName: string, env: Env)
    requires !ContainsSep(rel + "_") && !ContainsSep(attr)
    requires PytzTimezone(zoneName, env).Some?
    requires cacheName != attr && cacheName != RelationCacheKey(rel)
    ensures
      var zone := ZoneVal(PytzTimezone(zoneName, env).value);
      var related := Obj(map[attr := TextVal(zoneName)], map[]);
      var record := Obj(map[RelationCacheKey(rel) := ObjVal(related)], map[]);
      && GetTimezoneAsWritten(record, TextVal(rel + Sep + attr), cacheName, env)
         == Ok(Step(zone, Store(record, RelationCacheKey(rel), ObjVal(Store(related, cacheName, zone)))))
      && GetTimezone(record, TextVal(rel + Sep + attr), cacheName, env)
         == Ok(Step(zone, Store(record, cacheName, zone)))
  {
    var zone := ZoneVal(PytzTimezone(zoneName, env).value);
    var related := Obj(map[attr := TextVal(zoneName)], map[]);
    var key := RelationCacheKey(rel);
    var record := Obj(map[key := ObjVal(related)], map[]);
    assert |RelationCacheKey(attr)| != |attr|;
    LocateThroughCachedRelation(record, related, rel, attr, env);
    assert Coerce(TextVal(zoneName), env) == Ok(zone);
    assert StoreAt(record, [key], cacheName, zone) == Store(record, key, ObjVal(Store(related, cacheName, zone))) by {
      assert [key][1..] == [];
    }
  }

  /** Resolving `rel__attr` when the relation is cached reads `attr` on the
      related instance and remembers the one cache key followed. */
  lemma LocateThroughCachedRelation(record: Obj, related: Obj, rel: string, attr: string, env: Env)
    requires !ContainsSep(rel + "_") && !ContainsSep(attr)
    requires RelationCacheKey(rel) in record.dict && record.dict[RelationCacheKey(rel)] == ObjVal(related)
    requires attr in related.dict && RelationCacheKey(attr) !in related.dict
    ensures var v := related.dict[attr];
      Locate(record, TextVal(rel + Sep + attr), env)
        == Ok(Found(if v.NoneVal? then ZoneVal(env.defaultZone) else v, [RelationCacheKey(rel)]))
  {
    RelationPathSplits(rel, attr);
    WalkOneRelation(record, related, rel, attr);
    LocateAfterWalk(record, [rel, attr], Walked(related, [attr], [RelationCacheKey(rel)]), env);
  }

  /** `rel__attr` is a relation path with two parts. */
  lemma RelationPathSplits(rel: string, attr: string)
    requires !ContainsSep(rel + "_") && !ContainsSep(attr)
    ensures Split(rel + Sep + attr) == [rel, attr] && ContainsSep(rel + Sep + attr)
  {
    SplitPrefix(rel, attr);
    SplitSingle(attr);
    SplitMany(rel + Sep + attr);
  }

  /** A relation path whose walk leaves a single part reads that part as an
      attribute of the instance reached, defaulting `None`. */
  lemma LocateAfterWalk(o: Obj, parts: seq<string>, w: Walked, env: Env)
    requires Walk(o, parts) == Ok(w)
    requires |w.rest| == 1 && w.rest[0] in w.at.dict
    ensures var v := w.at.dict[w.rest[0]];
      FollowPath(o, parts, env) == Ok(Found(if v.NoneVal? then ZoneVal(env.defaultZone) else v, w.keys))
  {
  }

  /** Walking `[rel, attr]` from a record with `rel` cached stops at the
      related instance with `attr` left to read. */
  lemma WalkOneRelation(record: Obj, related: Obj, rel: string, attr: string)
    requires RelationCacheKey(rel) in record.dict && record.dict[RelationCacheKey(rel)] == ObjVal(related)
    requires RelationCacheKey(attr) !in related.dict
    ensures Walk(record, [rel, attr]) == Ok(Walked(related, [attr], [RelationCacheKey(rel)]))
  {
    var key := RelationCacheKey(rel);
    var inner := Walk(related, [attr]);
    assert inner == Ok(Walked(related, [attr], []));
    assert [rel, attr][1..] == [attr];
    assert Walk(record, [rel, attr]) == Ok(inner.value.(keys := [key] + inner.value.keys)) by {
      assert record.dict[key] == ObjVal(related);
    }
    assert [key] + [] == [key];
  }

  /** The concrete instance: an event whose `start` zone is `owner__tz`. */
  lemma OwnerTzExample(env: Env)
    requires "Europe/Moscow" in env.zones
    ensures
      var zone := ZoneVal(env.zones["Europe/Moscow"]);
      var owner := Obj(map["tz" := TextVal("Europe/Moscow")], map[]);
      var event := Obj(map["_owner_cache" := ObjVal(owner)], map[]);
      var written := GetTimezoneAsWritten(event, TextVal("owner__tz"), "_start_cache", env);
      && written.Ok?
      && "_start_cache" !in written.value.rec.dict
      && written.value.rec == Store(event, "_owner_cache", ObjVal(Store(owner, "_start_cache", zone)))
  {
    ContainsSepAt("owner" + "_");
    ContainsSepAt("tz");
    assert RelationCacheKey("owner") == "_owner_cache";
    assert "owner" + Sep + "tz" == "owner__tz";
    assert !IsUtcName("Europe/Moscow");
    AsWrittenCachesOnRelated("owner", "tz", "Europe/Moscow", "_start_cache", env);
  }
}
